=== FILE: README.md ===
# Tuhi BLE and session core, modelled in Dafny

Tuhi is a daemon that finds Wacom smartpads over Bluetooth Low Energy
through BlueZ, connects to them, and turns the pen strokes they stream into
drawings. This project models the sequential logic at its core:

- **GATT topology resolution** (`tuhi/ble.py`): a `BlueZDevice` turns the
  flat list of BlueZ objects into a UUID-keyed characteristic map.
  Services are matched by their `Device` path and characteristics by their
  `Service` path. The first characteristic seen for a UUID wins and is
  never replaced.
- **Property-change routing**: a `BlueZCharacteristic` keeps a name ->
  callback map and routes each changed property to its callback. A
  device's `Connected` changes become `connected` / `disconnected` signals.
- **The device manager** classifies each new object (adapter, then device,
  then characteristic). It builds a device for every Device1 object. When a
  characteristic arrives, it re-resolves every known device.
- **Stroke decoding** (`tuhi.py`, `_on_drawing_received`): a per-stroke
  fold over `(type, x, y, pressure)` tuples with running last values. The
  fold produces a `TuhiDrawing` and its dictionary record.
- **Session orchestration** (`TuhiDevice`, `Tuhi`): pairing-mode detection,
  the choice between pairing and retrieval on connect, Wacom filtering,
  and one `TuhiDevice` per hardware address.

Everything is written as immutable datatypes and pure functions. Signals
emitted and bus calls issued (`Connect`, `StartNotify`) come back as lists
of effects or actions. State changes come back as new values.

Modules and files:

| file | module | models |
|---|---|---|
| wrappers.dfy | Wrappers | `Option` (Python `None`) and `Result` (a raised exception) |
| bus.dfy | Bus | D-Bus variants, changed-property batches, BlueZ objects and their cached properties |
| gatt.dfy | Gatt | `BlueZCharacteristic` |
| topology.dfy | Topology | `_resolve_gatt_services` / `_resolve_gatt_characteristics` |
| device.dfy | Device | `BlueZDevice` |
| manager.dfy | Manager | `BlueZDeviceManager` |
| drawing.dfy | Drawing | `TuhiDrawing`, `Stroke.to_dict`, `Point.to_dict`, the drawing record, and a parser that reads it back |
| decode.dfy | StrokeDecode | the stroke fold of `_on_drawing_received` |
| session.dfy | Session | `TuhiDevice`, `Tuhi` |

## Behaviour of the code worth knowing

- **Missing channels in a stroke.** tuhi.py:144 overwrites
  `lastx, lasty, lastp` with this point's possibly-None values. So a
  missing channel yields None and also clears the running value. It is not
  carried forward. A later relative value on that channel then raises a
  `TypeError` (`None + int`), which aborts the whole drawing. For example,
  `[(Abs,10,20,5), (Rel,3,-2,0), (Rel,None,5,None)]` decodes its third
  point to `(None, 23, None)`.
  `StrokeDecode.MissingChannelClearsRunningValue` works through this trace.
- **Position is always present.** `position` is always set to a tuple, and
  a tuple is never None. So `Point.to_dict` always has a `position` key,
  possibly `[null, null]`. `toffset` is never set.
- **No deduplication in the device manager.** `BlueZDeviceManager` builds a
  new `BlueZDevice` and emits `device-added` for every Device1 object.
  Deduplication by address happens only in `Tuhi.get_tuhi_device`.
- **Connection results are only logged.** `_on_connect_result` logs and
  changes nothing, and no connection state is kept. The model has the
  events and actions the code has and no state machine.
- **Empty manufacturer data.** When `ManufacturerData` is present but
  empty, `md.keys()[0]` raises. Device construction then aborts
  (`EmptyManufacturerData`).

## Model

| member | source | states |
|---|---|---|
| Gatt.ConnectProperty | tuhi/ble.py:45-52 | registering routes the name to the new callback; every other name keeps its callback |
| Gatt.ConnectAllLastWins | tuhi/ble.py:52 | after a series of registrations, each name is routed to the handler of its last registration; unregistered names keep what they had |
| Gatt.Dispatch | tuhi/ble.py:60-66 | a batch makes no more callback calls than it has changed properties |
| Gatt.DispatchRoutesRegistered | tuhi/ble.py:60-66 | every call goes to the callback registered for a changed name, with that name and value; every registered changed name is called; a batch of unregistered names calls nothing and raises nothing |
| Gatt.DispatchConcat | tuhi/ble.py:62-66 | routing follows batch order: routing a concatenation is routing each part in turn |
| Gatt.DispatchAllRegistered | tuhi/ble.py:62-64 | when every name has a callback, the i-th call is the i-th change's callback with (name, value) |
| Topology.ServicesOf | tuhi/ble.py:126-138 | the service list holds exactly the paths of service objects whose Device is this device; a single object contributes its path exactly when it is such a service |
| Topology.ServicesOfConcat | tuhi/ble.py:128-138 | services are listed in arena order: the list for a split arena is the two lists one after the other |
| Topology.FirstOfferIndex | tuhi/ble.py:142-157 | the chosen object is a characteristic of the service with the UUID, and no earlier object in the arena is |
| Topology.AddFromService | tuhi/ble.py:141-157 | old entries are kept unchanged; the new keys are exactly the UUIDs of this service's characteristics; each new entry is a fresh characteristic built from the first object offering that UUID |
| Topology.AddFromServices | tuhi/ble.py:126-157 | across all services, old entries are kept; the new keys are exactly the UUIDs that one of the services offers; a new entry comes from the first service in the list that offers its UUID, via its first offering object |
| Topology.ResolvedMap | tuhi/ble.py:126-157 | a pass only adds keys; it adds exactly the UUIDs the device's services provide; an added entry is built from the first offering characteristic of the first service, in arena order, that offers the UUID |
| Topology.FirstProvidingPosition | tuhi/ble.py:128-138 | the first service of the device in the arena that offers a UUID is also the first such service in the service list |
| Topology.ProvidesMonotone | tuhi/ble.py:126-157 | a UUID provided by an arena is provided by any arena holding all of its objects |
| Device.Resolve | tuhi/ble.py:116-157 | the service list is rebuilt from scratch in arena order; identity fields are unchanged; characteristics are never replaced or removed; the UUID set becomes the old set plus what the device's services provide; a new UUID is taken from the first service in arena order that offers it |
| Device.FirstServiceWins | tuhi/ble.py:126-157 | when two services offer one UUID and the second one's characteristic comes first in the arena, the UUID still maps to the first service's characteristic |
| Device.NewDevice | tuhi/ble.py:90-114 | construction fails exactly when Address, Name or UUIDs is missing or the manufacturer data is empty; vendor_id is the first ManufacturerData key, or 0 without it; the map holds exactly the provided UUIDs with no callbacks; the new device is the resolution of a blank device with the read identity, so its service list and its entries follow first-service-wins; `connected` is emitted iff the device is already connected |
| Device.ResolveIdempotent | tuhi/ble.py:123-157 | resolving twice against an unchanged object set equals resolving once |
| Device.ResolveComplete | tuhi/ble.py:152-153 | when every provided UUID is already mapped, resolution leaves the map unchanged |
| Device.ResolveMonotone | tuhi/ble.py:126-157 | more objects never mean fewer resolved UUIDs |
| Device.ResolveCatchesUp | tuhi/ble.py:116-124 | a pass on a partial object set followed by a pass on the complete set gives the same services and UUIDs as one pass on the complete set |
| Device.ResolveOrderIndependent | tuhi/ble.py:126-157 | object sets with the same members, in any order, resolve to the same services and UUIDs |
| Device.ConnectDevice | tuhi/ble.py:159-171 | an already-connected device emits `connected` and no Connect call is made; otherwise exactly one Connect call is made |
| Device.OnPropertiesChanged | tuhi/ble.py:177-186 | a batch without `Connected` emits nothing; `Connected` true emits `connected`, false emits `disconnected` |
| Device.ConnectSignalsOnce | tuhi/ble.py:159-186 | a connect request, plus the bus confirmation when a Connect call was made, emits `connected` exactly once |
| Device.ConnectGattValue | tuhi/ble.py:188-198 | an unknown UUID changes nothing and issues nothing; a known UUID gets its `Value` routed to the callback through `connect_property`, so its other callbacks, the other characteristics and the identity stay as they were, and notifications are started on it |
| Device.ValueRoutingSurvivesResolve | tuhi/ble.py:188-198 | after `connect_gatt_value`, any later resolution keeps the characteristic, so a Value change still reaches the callback |
| Manager.ProcessObject | tuhi/ble.py:284-305 | the flag is true exactly for an object that is a characteristic and neither an adapter nor a device; only a device object changes the list, by appending exactly one device followed by `device-added`; it fails only when a device object's construction fails, and then with that construction's error |
| Manager.ResolveAll | tuhi/ble.py:275-277 | every known device is resolved again, in order |
| Manager.OnObjectAdded | tuhi/ble.py:266-277 | a characteristic object emits nothing and replaces every known device, in order, by its resolution against the arena; any other object gives exactly what `_process_object` gives and never re-resolves known devices; a failure carries `_process_object`'s error |
| Manager.OnObjectAddedIdempotent | tuhi/ble.py:266-277 | announcing the same characteristic twice against the same objects changes nothing the second time |
| Drawing.PointDict | tuhi.py:48-54 | the dictionary holds exactly those of toffset/position/pressure that are not None, with their values |
| Drawing.StrokeDict | tuhi.py:39-42 | a stroke's dictionary is its point dictionaries in order |
| Drawing.Record | tuhi.py:62-71 | the record has exactly version 1, the device name, the dimensions as a list, the timestamp and, per stroke in order, that stroke's dictionary |
| Drawing.RecordRoundTrip | tuhi.py:39-71 | the record reads back to the drawing it came from, so dropping None fields loses nothing |
| StrokeDecode.DecodePoint | tuhi.py:130-148 | a missing raw channel gives None; an absolute one gives the raw value; a relative one gives raw plus the running value; it fails on the first channel, in the order x, y, pressure, that reads a None running value |
| StrokeDecode.DecodeFrom | tuhi.py:128-148 | a decoded stroke has one point per raw point; a failure names a point inside the stroke |
| StrokeDecode.DecodeSucceedsIff | tuhi.py:130-144 | a stroke decodes iff no relative value meets a None running value, that is, iff the previous point (or the start value) has that channel |
| StrokeDecode.DecodedAt | tuhi.py:130-148 | at each point, output None iff raw None; absolute output equals raw; relative output equals raw plus the previous point's output on that channel |
| StrokeDecode.DecodeValues | tuhi.py:127-149 | the same facts for all points at once, with the number of points preserved |
| StrokeDecode.DecodeFailsAtFirst | tuhi.py:130-142 | a failing stroke fails at its first offending point: relative, with that channel's running value None, and every earlier point decodes |
| StrokeDecode.DecodeDrawing | tuhi.py:124-149 | the drawing carries the device name, dimensions (0, 0) and the timestamp; it has one stroke per raw stroke, each decoded from fresh None running values; the first failing stroke aborts the drawing |
| StrokeDecode.DecodeStrokes | tuhi.py:127-149 | a successful decode yields exactly one stroke per raw stroke |
| StrokeDecode.DecodeStrokesSpec | tuhi.py:127-149 | the strokes decode exactly when every raw stroke decodes from fresh running values; stroke k is the decoding of raw stroke k; a failure names the first failing stroke and the point and channel where it fails |
| StrokeDecode.DecodeStrokesConcat | tuhi.py:127-129 | strokes decode independently: decoding two runs together gives the two decodings side by side |
| StrokeDecode.DecodedPointDict | tuhi.py:144-147 | a decoded point's dictionary always has position, never toffset, and has pressure iff the raw point had one |
| StrokeDecode.MissingChannelClearsRunningValue | tuhi.py:144 | worked trace: a missing channel comes out None and a later relative value on it raises |
| Session.PairingMode | tuhi.py:95-102 | pairing mode iff the manufacturer data is 4 bytes long; the value is published |
| Session.RetrieveData | tuhi.py:104-105 | retrieval starts by connecting the BlueZ device |
| Session.OnPairing | tuhi.py:107-110 | the pairing request is remembered and a connect is issued |
| Session.OnConnected | tuhi.py:112-119 | with the driver idle, exactly one of start_pairing (when requested, which clears the flag) or start runs; with the driver working nothing happens and the flag stays |
| Session.PairingIsOneShot | tuhi.py:107-119 | a pairing request followed by an idle connection starts pairing once; the next idle connection starts retrieval |
| Session.OnDrawingReceived | tuhi.py:124-151 | the handler succeeds iff every stroke decodes, and then hands over exactly one drawing with the device name, dimensions (0, 0), the timestamp and, for each raw stroke, its decoding from fresh running values; a failure names the first failing stroke and the point and channel where it fails |
| Session.OnFetchingFinished | tuhi.py:153-154 | the BlueZ device is disconnected |
| Session.RetrievalReleasesConnection | tuhi.py:153-154 | the fetch-finished step disconnects exactly the BlueZ device the retrieval connected, once |
| Session.GetTuhiDevice | tuhi.py:183-189 | returns the device filed under the address; it is created (with its bus counterpart) only when absent and otherwise returned unchanged |
| Session.OnBluezDeviceUpdated | tuhi.py:191-199 | non-Wacom vendors change nothing; a Wacom device leaves the daemon state `get_tuhi_device` leaves, so a new address files a TuhiDevice wired to this BlueZ device with no pairing requested, and a known address keeps its device; other devices are untouched; the actions are exactly: the bus counterpart's creation for a new address, the pairing-mode publication, then a connect of the filed BlueZ device iff it is not in pairing mode; devices stay filed under their own address |
| Session.UpdatesDeduplicate | tuhi.py:183-199 | two updates for the same address create at most one device, and the second update reuses the first one's device |

## Left out

- The D-Bus, Gio and GLib plumbing is not modelled. This covers
  `connect_to_bluez` (including its initial loop over existing objects),
  proxies, `get_cached_property` and the main loop. The object set and
  cached property values are parameters. The `Connect` and `StartNotify`
  calls are returned effects. `write_value` and `start_notify` are bare bus
  calls with no logic.
- The GObject signal machinery is not modelled: emissions are returned
  lists. The `connected` emitted during `BlueZDevice.__init__` is returned
  as well, although no handler can be attached yet at that point.
- Logging-only handlers have no model: `_on_connect_result`,
  `_on_om_object_removed`, `_process_adapter`, `_process_characteristic`
  and `_on_bluez_device_disconnected`.
- Callbacks are opaque handler identities. Their own behaviour is not
  modelled, and neither is a `KeyError` they raise inside the dispatch
  loop, which the loop would swallow.
- tuhi/ble.py:200-227 is not modelled: it references undefined constants
  and `connect_properties`. `BlueZDevice.start` is left out too, because it
  calls an undefined `retrieve_data`.
- BlueZ's mandatory properties are always present in the model: a
  service's `Device`, a characteristic's `Service` and `UUID`, and a
  device's `Connected`. The source would raise on a missing one.
- The wiring mismatch is not modelled. `Tuhi` subscribes to `device-updated`
  but the manager emits `device-added`. Only the handler logic is modelled.
- Foreign collaborators become parameters: the protocol driver's `working`
  flag, `get_manufacturer_data(WACOM_COMPANY_ID)`, the driver's device name
  and the raw drawing. `TuhiDBusServer` and `WacomDevice` are not part of
  this model. Neither are `Tuhi.__init__`, `_on_tuhi_bus_name_acquired`
  and `main`.
- The JSON text from `json.dumps` is not modelled, and nor is the key
  order of dictionaries. Records are maps.
- Stroke point types are either relative or absolute. The source treats
  every type other than `Stroke.RELATIVE` as absolute.
- StrokeDecode.DecodeFrom: its contract only states the lengths. The
  per-point behaviour is proved in `DecodeSucceedsIff`, `DecodedAt`,
  `DecodeValues` and `DecodeFailsAtFirst`.
- StrokeDecode.DecodeStrokes: its contract only states the number of
  strokes. Which strokes decode, and to what, is proved in
  `DecodeStrokesSpec`.

=== FILE: bus.dfy ===
/** What the system bus hands to the BlueZ layer: unpacked D-Bus variants,
    changed-property batches, and the flat arena of objects reported by
    BlueZ's object manager (adapters, devices, GATT services, GATT
    characteristics), each carrying the cached properties the model reads. */
module Bus {
  import opened Wrappers

  /** A D-Bus object path such as /org/bluez/hci0/dev_00_11_22_33_44_55. */
  type Path = string

  /** A GATT UUID in its textual form. */
  type Uuid = string

  type byte = x: int | 0 <= x < 256

  /** The unpacked value of a D-Bus variant, as far as this model needs it. */
  datatype Variant =
    | VBool(b: bool)
    | VInt(i: int)
    | VStr(s: string)
    | VBytes(bytes: seq<byte>)

  /** Python truthiness of an unpacked variant. */
  predicate Truthy(v: Variant)
  {
    match v
    case VBool(b) => b
    case VInt(i) => i != 0
    case VStr(s) => |s| > 0
    case VBytes(bs) => |bs| > 0
  }

  /** The changed-properties argument of PropertiesChanged (an a{sv}
      dictionary) after unpacking: (name, value) pairs in dictionary order. */
  type Batch = seq<(string, Variant)>

  /** A Python dict holds every key at most once. */
  predicate DistinctNames(batch: Batch)
  {
    forall i, j :: 0 <= i < j < |batch| ==> batch[i].0 != batch[j].0
  }

  /** The value of `name` in the batch, read as a dict lookup. */
  function Lookup(batch: Batch, name: string): (r: Option<Variant>)
    ensures r.None? <==> forall i :: 0 <= i < |batch| ==> batch[i].0 != name
    ensures DistinctNames(batch) ==>
      forall i :: 0 <= i < |batch| && batch[i].0 == name ==> r == Some(batch[i].1)
    decreases |batch|
  {
    if |batch| == 0 then None
    else if batch[0].0 == name then Some(batch[0].1)
    else
      assert forall i :: 1 <= i < |batch| ==> batch[i] == batch[1..][i - 1];
      Lookup(batch[1..], name)
  }

  /** Cached properties of an org.bluez.Device1 interface. Address, Name and
      UUIDs may be missing from the cache; ManufacturerData is an a{qv}
      dictionary kept in its key order. */
  datatype DeviceProps = DeviceProps(
    address: Option<string>,
    name: Option<string>,
    uuids: Option<seq<Uuid>>,
    manufacturerData: Option<seq<(int, seq<byte>)>>,
    connected: bool)

  /** Cached properties of an org.bluez.GattService1 interface. */
  datatype ServiceProps = ServiceProps(device: Path)

  /** Cached properties of an org.bluez.GattCharacteristic1 interface. */
  datatype CharacteristicProps = CharacteristicProps(service: Path, uuid: Uuid)

  /** One object of the BlueZ object manager: its path and which of the four
      interfaces of interest it exposes. */
  datatype BusObject = BusObject(
    path: Path,
    adapter: bool,
    device: Option<DeviceProps>,
    service: Option<ServiceProps>,
    characteristic: Option<CharacteristicProps>)

  /** `o` is a GATT service whose Device property names `device`. */
  predicate IsServiceOf(o: BusObject, device: Path)
  {
    o.service.Some? && o.service.value.device == device
  }

  /** `o` is a GATT characteristic whose Service property names `service`. */
  predicate IsCharacteristicOf(o: BusObject, service: Path)
  {
    o.characteristic.Some? && o.characteristic.value.service == service
  }
}

=== FILE: decode.dfy ===
/** `_on_drawing_received`: the fold that turns each stroke's raw
    (type, x, y, pressure) tuples into absolute points. Within a stroke
    each channel keeps a running value, starting as None at every stroke.
    A present absolute value is taken verbatim, a present relative value is
    added to the running value, and afterwards the running values are
    overwritten with this point's outputs, so a missing channel yields None
    AND clears that channel's running value. A relative value met while its
    running value is None is the Python TypeError of `None + int`; it aborts
    the whole drawing. */
module StrokeDecode {
  import opened Wrappers
  import opened Drawing

  /** `Stroke.RELATIVE` versus any other type, which is read as absolute. */
  datatype PointKind = Absolute | Relative

  datatype RawPoint = RawPoint(kind: PointKind, x: Option<int>, y: Option<int>, p: Option<int>)

  /** A drawing as the protocol driver delivers it: its timestamp and its strokes. */
  datatype RawDrawing = RawDrawing(timestamp: int, strokes: seq<seq<RawPoint>>)

  datatype Channel = X | Y | P

  /** Where the `None + int` TypeError is raised. */
  datatype DecodeError = RelativeWithoutBase(stroke: nat, point: nat, channel: Channel)

  /** The running values `lastx`, `lasty`, `lastp`. */
  datatype Running = Running(x: Option<int>, y: Option<int>, p: Option<int>)

  const Unknown := Running(None, None, None)

  function Raw(pt: RawPoint, c: Channel): Option<int>
  {
    match c
    case X => pt.x
    case Y => pt.y
    case P => pt.p
  }

  function Last(run: Running, c: Channel): Option<int>
  {
    match c
    case X => run.x
    case Y => run.y
    case P => run.p
  }

  /** The value a decoded point shows for a channel. */
  function Out(q: Point, c: Channel): Option<int>
  {
    match c
    case X => if q.position.Some? then q.position.value.0 else None
    case Y => if q.position.Some? then q.position.value.1 else None
    case P => q.pressure
  }

  /** The running values after a point: that point's outputs. */
  function RunningAfter(q: Point): Running
  {
    Running(Out(q, X), Out(q, Y), Out(q, P))
  }

  /** The point is relative and carries a value for the channel, so the
      channel's running value is read. */
  predicate NeedsBase(pt: RawPoint, c: Channel)
  {
    pt.kind == Relative && Raw(pt, c).Some?
  }

  /** One channel of one point; None when the addition would raise. */
  function DecodeChannel(pt: RawPoint, c: Channel, run: Running): Option<Option<int>>
  {
    match Raw(pt, c)
    case None => Some(None)
    case Some(v) =>
      if pt.kind == Absolute then Some(Some(v))
      else if Last(run, c).None? then None
      else Some(Some(v + Last(run, c).value))
  }

  /** One loop iteration: the point appended to the stroke, or the first
      channel (in the order x, y, pressure) whose addition raises. A decoded
      point always has a position tuple, never a time offset; a missing raw
      channel gives None, an absolute one its raw value, a relative one its
      raw value plus the running value. */
  function DecodePoint(pt: RawPoint, run: Running): (r: Result<Point, Channel>)
    ensures r.Success? <==> forall c :: NeedsBase(pt, c) ==> Last(run, c).Some?
    ensures r.Failure? ==> NeedsBase(pt, r.error) && Last(run, r.error).None?
    ensures r.Failure? && r.error != X ==> !(NeedsBase(pt, X) && Last(run, X).None?)
    ensures r.Failure? && r.error == P ==> !(NeedsBase(pt, Y) && Last(run, Y).None?)
    ensures r.Success? ==> var q := r.value;
      && q.toffset.None? && q.position.Some?
      && forall c :: Out(q, c) ==
           if Raw(pt, c).None? then None
           else if pt.kind == Absolute then Raw(pt, c)
           else Some(Raw(pt, c).value + Last(run, c).value)
  {
    match (DecodeChannel(pt, X, run), DecodeChannel(pt, Y, run), DecodeChannel(pt, P, run))
    case (None, _, _) => Failure(X)
    case (_, None, _) => Failure(Y)
    case (_, _, None) => Failure(P)
    case (Some(x), Some(y), Some(p)) =>
      var q := Point(None, Some((x, y)), p);
      ChannelsOfDecoded(pt, run, q);
      Success(q)
  }

  /** A point built from the three channel results shows each of them. */
  lemma ChannelsOfDecoded(pt: RawPoint, run: Running, q: Point)
    requires forall c :: DecodeChannel(pt, c, run).Some?
    requires q == Point(None, Some((DecodeChannel(pt, X, run).value, DecodeChannel(pt, Y, run).value)), DecodeChannel(pt, P, run).value)
    ensures forall c :: Out(q, c) == DecodeChannel(pt, c, run).value
  {
  }

  /** The running value available to point `i` of `pts` for a channel:
      the stroke's starting value for the first point, otherwise present
      exactly when the previous point had a raw value on that channel. */
  predicate BaseAvailable(pts: seq<RawPoint>, run: Running, i: nat, c: Channel)
    requires i < |pts|
  {
    if i == 0 then Last(run, c).Some? else Raw(pts[i - 1], c).Some?
  }

  /** No point reads a running value that is None. */
  predicate Decodable(pts: seq<RawPoint>, run: Running)
  {
    forall i: nat, c :: i < |pts| && NeedsBase(pts[i], c) ==> BaseAvailable(pts, run, i, c)
  }

  /** The inner loop over one stroke's points, from running values `run`;
      a failure names the point index and channel that raise. */
  function DecodeFrom(pts: seq<RawPoint>, run: Running): (r: Result<seq<Point>, (nat, Channel)>)
    ensures r.Success? ==> |r.value| == |pts|
    ensures r.Failure? ==> r.error.0 < |pts|
    decreases |pts|
  {
    if |pts| == 0 then Success([])
    else match DecodePoint(pts[0], run)
      case Failure(c) => Failure((0, c))
      case Success(q) =>
        match DecodeFrom(pts[1..], RunningAfter(q))
        case Failure((i, c)) => Failure((i + 1, c))
        case Success(rest) => Success([q] + rest)
  }

  /** Decodability of a stroke splits into its first point and the rest,
      the rest starting from the first point's outputs. */
  lemma DecodableStep(pts: seq<RawPoint>, run: Running, q: Point)
    requires |pts| > 0 && DecodePoint(pts[0], run) == Success(q)
    ensures Decodable(pts, run) <==> Decodable(pts[1..], RunningAfter(q))
  {
  }

  /** A stroke decodes without raising exactly when no point reads a None
      running value. */
  lemma {:induction false} DecodeSucceedsIff(pts: seq<RawPoint>, run: Running)
    ensures DecodeFrom(pts, run).Success? <==> Decodable(pts, run)
    decreases |pts|
  {
    if |pts| > 0 {
      var d := DecodePoint(pts[0], run);
      if d.Success? {
        DecodableStep(pts, run, d.value);
        DecodeSucceedsIff(pts[1..], RunningAfter(d.value));
      } else {
        assert NeedsBase(pts[0], d.error) && !BaseAvailable(pts, run, 0, d.error);
      }
    }
  }

  lemma LastOfRunningAfter(q: Point)
    ensures forall c :: Last(RunningAfter(q), c) == Out(q, c)
  {
  }

  /** Point `i` of a decoded stroke: a position tuple and no time offset; a
      channel is None exactly when its raw value is; an absolute value is
      copied; a relative value is added to the previous point's output on
      that channel (to the starting value for the first point). */
  lemma {:induction false} DecodedAt(pts: seq<RawPoint>, run: Running, i: nat)
    requires DecodeFrom(pts, run).Success? && i < |pts|
    ensures var out := DecodeFrom(pts, run).value;
      && out[i].toffset.None? && out[i].position.Some?
      && forall c ::
        && (Out(out[i], c).None? <==> Raw(pts[i], c).None?)
        && (pts[i].kind == Absolute ==> Out(out[i], c) == Raw(pts[i], c))
        && (NeedsBase(pts[i], c) ==>
              var base := if i == 0 then Last(run, c) else Out(out[i - 1], c);
              base.Some? && Out(out[i], c) == Some(Raw(pts[i], c).value + base.value))
    decreases i
  {
    var q := DecodePoint(pts[0], run).value;
    if i > 0 {
      var tail := pts[1..];
      var out := DecodeFrom(pts, run).value;
      var rest := DecodeFrom(tail, RunningAfter(q)).value;
      assert out == [q] + rest;
      DecodedAt(tail, RunningAfter(q), i - 1);
      assert out[i] == rest[i - 1] && pts[i] == tail[i - 1];
      if i == 1 {
        LastOfRunningAfter(q);
      } else {
        assert out[i - 1] == rest[i - 2];
      }
    }
  }

  /** The decoded stroke has one point per raw point, in order, each
      described by `DecodedAt`. */
  lemma DecodeValues(pts: seq<RawPoint>, run: Running)
    requires DecodeFrom(pts, run).Success?
    ensures var out := DecodeFrom(pts, run).value;
      && |out| == |pts|
      && (forall i :: 0 <= i < |out| ==> out[i].toffset.None? && out[i].position.Some?)
      && (forall i, c :: 0 <= i < |out| ==> (Out(out[i], c).None? <==> Raw(pts[i], c).None?))
      && (forall i, c :: 0 <= i < |out| && pts[i].kind == Absolute ==> Out(out[i], c) == Raw(pts[i], c))
      && (forall i, c :: 0 <= i < |out| && NeedsBase(pts[i], c) ==>
            var base := if i == 0 then Last(run, c) else Out(out[i - 1], c);
            base.Some? && Out(out[i], c) == Some(Raw(pts[i], c).value + base.value))
  {
  }

  /** A failing stroke fails at its first offending point: that point is
      relative on the named channel with no running value, and everything
      before it decodes. */
  lemma {:induction false} DecodeFailsAtFirst(pts: seq<RawPoint>, run: Running)
    requires DecodeFrom(pts, run).Failure?
    ensures var (i, c) := DecodeFrom(pts, run).error;
      && i < |pts| && NeedsBase(pts[i], c) && !BaseAvailable(pts, run, i, c)
      && Decodable(pts[..i], run)
    decreases |pts|
  {
    var d := DecodePoint(pts[0], run);
    if d.Success? {
      var q := d.value;
      var tail := pts[1..];
      DecodeFailsAtFirst(tail, RunningAfter(q));
      var (j, c) := DecodeFrom(tail, RunningAfter(q)).error;
      assert tail[j] == pts[j + 1];
      assert pts[..j + 1][1..] == tail[..j];
      DecodableStep(pts[..j + 1], run, q);
      forall c' ensures Last(RunningAfter(q), c').Some? <==> Raw(pts[0], c').Some? {
        match c'
        case X =>
        case Y =>
        case P =>
      }
      if j > 0 {
        assert tail[j - 1] == pts[j];
      }
    }
  }

  /** `_on_drawing_received` without the hand-off: a TuhiDrawing named after
      the device, with dimensions (0, 0) and the drawing's timestamp, whose
      strokes are decoded one by one, each from fresh None running values.
      The first stroke that raises aborts the whole drawing. */
  function DecodeDrawing(name: string, raw: RawDrawing): (r: Result<TuhiDrawing, DecodeError>)
    ensures r.Success? <==> forall k :: 0 <= k < |raw.strokes| ==> DecodeFrom(raw.strokes[k], Unknown).Success?
    ensures r.Success? ==>
      && r.value.name == name && r.value.dimensions == (0, 0) && r.value.timestamp == raw.timestamp
      && |r.value.strokes| == |raw.strokes|
      && forall k :: 0 <= k < |raw.strokes| ==> r.value.strokes[k].points == DecodeFrom(raw.strokes[k], Unknown).value
    ensures r.Failure? ==> var e := r.error;
      && e.stroke < |raw.strokes|
      && DecodeFrom(raw.strokes[e.stroke], Unknown) == Failure((e.point, e.channel))
      && forall k :: 0 <= k < e.stroke ==> DecodeFrom(raw.strokes[k], Unknown).Success?
  {
    DecodeStrokesSpec(raw.strokes);
    match DecodeStrokes(raw.strokes)
    case Failure(e) => Failure(e)
    case Success(strokes) => Success(TuhiDrawing(name, (0, 0), raw.timestamp, strokes))
  }

  /** The outer loop over strokes, each decoded from fresh running values. */
  function DecodeStrokes(strokes: seq<seq<RawPoint>>): (r: Result<seq<Stroke>, DecodeError>)
    ensures r.Success? ==> |r.value| == |strokes|
    decreases |strokes|
  {
    if |strokes| == 0 then Success([])
    else
      match DecodeFrom(strokes[0], Unknown)
      case Failure((i, c)) => Failure(RelativeWithoutBase(0, i, c))
      case Success(points) =>
        match DecodeStrokes(strokes[1..])
        case Failure(e) => Failure(e.(stroke := e.stroke + 1))
        case Success(rest) => Success([Stroke(points)] + rest)
  }

  /** The stroke loop succeeds exactly when every stroke decodes on its own,
      and then stroke k holds the decoding of raw stroke k; otherwise the
      error names the first stroke that fails, and where it fails. */
  lemma {:induction false} DecodeStrokesSpec(strokes: seq<seq<RawPoint>>)
    ensures var r := DecodeStrokes(strokes);
      && (r.Success? <==> forall k :: 0 <= k < |strokes| ==> DecodeFrom(strokes[k], Unknown).Success?)
      && (r.Success? ==> forall k :: 0 <= k < |strokes| ==> r.value[k].points == DecodeFrom(strokes[k], Unknown).value)
      && (r.Failure? ==> var e := r.error;
          && e.stroke < |strokes|
          && DecodeFrom(strokes[e.stroke], Unknown) == Failure((e.point, e.channel))
          && forall k :: 0 <= k < e.stroke ==> DecodeFrom(strokes[k], Unknown).Success?)
    decreases |strokes|
  {
    if |strokes| > 0 {
      DecodeStrokesSpec(strokes[1..]);
      assert forall k :: 1 <= k < |strokes| ==> strokes[k] == strokes[1..][k - 1];
    }
  }

  /** Strokes decode independently: decoding two runs of strokes together
      gives the decodings of each run, side by side. */
  lemma {:induction false} DecodeStrokesConcat(a: seq<seq<RawPoint>>, b: seq<seq<RawPoint>>)
    requires DecodeStrokes(a).Success? && DecodeStrokes(b).Success?
    ensures DecodeStrokes(a + b) == Success(DecodeStrokes(a).value + DecodeStrokes(b).value)
    decreases |a|
  {
    if |a| == 0 {
      assert a + b == b;
      assert DecodeStrokes(a).value + DecodeStrokes(b).value == DecodeStrokes(b).value;
    } else {
      assert (a + b)[0] == a[0];
      assert (a + b)[1..] == a[1..] + b;
      var points := DecodeFrom(a[0], Unknown).value;
      DecodeStrokesConcat(a[1..], b);
      var rest := DecodeStrokes(a[1..]).value;
      assert DecodeStrokes(a).value == [Stroke(points)] + rest;
      var right := DecodeStrokes(b).value;
      assert DecodeStrokes(a + b).value == [Stroke(points)] + (rest + right);
      assert [Stroke(points)] + (rest + right) == ([Stroke(points)] + rest) + right;
    }
  }

  /** What `Point.to_dict` keeps of a decoded point: always a position (a
      tuple, possibly of two Nones, is never None itself), never a time
      offset, and a pressure exactly when the raw point carried one. */
  lemma DecodedPointDict(pts: seq<RawPoint>, run: Running, i: nat)
    requires DecodeFrom(pts, run).Success? && i < |pts|
    ensures var d := PointDict(DecodeFrom(pts, run).value[i]);
      && "position" in d && "toffset" !in d
      && ("pressure" in d <==> pts[i].p.Some?)
  {
    DecodedAt(pts, run, i);
    assert Raw(pts[i], P) == pts[i].p;
  }

  /** A concrete trace of the fold: the third point has no x and no
      pressure, so both come out as None rather than repeating 13 and 5,
      and a fourth, relative point carrying an x then raises on x. */
  lemma MissingChannelClearsRunningValue()
    ensures var pts := [
        RawPoint(Absolute, Some(10), Some(20), Some(5)),
        RawPoint(Relative, Some(3), Some(-2), Some(0)),
        RawPoint(Relative, None, Some(5), None)];
      && DecodeFrom(pts, Unknown) == Success([
        Point(None, Some((Some(10), Some(20))), Some(5)),
        Point(None, Some((Some(13), Some(18))), Some(5)),
        Point(None, Some((None, Some(23))), None)])
      && DecodeFrom(pts + [RawPoint(Relative, Some(1), None, None)], Unknown) == Failure((3, X))
  {
    var pts := [
        RawPoint(Absolute, Some(10), Some(20), Some(5)),
        RawPoint(Relative, Some(3), Some(-2), Some(0)),
        RawPoint(Relative, None, Some(5), None)];
    var q0 := Point(None, Some((Some(10), Some(20))), Some(5));
    var q1 := Point(None, Some((Some(13), Some(18))), Some(5));
    var q2 := Point(None, Some((None, Some(23))), None);
    var more := pts + [RawPoint(Relative, Some(1), None, None)];
    assert DecodePoint(pts[0], Unknown) == Success(q0);
    assert DecodePoint(pts[1], RunningAfter(q0)) == Success(q1);
    assert DecodePoint(pts[2], RunningAfter(q1)) == Success(q2);
    assert DecodePoint(more[3], RunningAfter(q2)) == Failure(X);
    assert pts[1..][1..][1..] == [];
    assert pts[1..][1..][0] == pts[2] && pts[1..][0] == pts[1];
    assert DecodeFrom(pts[1..][1..][1..], RunningAfter(q2)) == Success([]);
    assert [q2] + [] == [q2] && [q1] + [q2] == [q1, q2] && [q0] + [q1, q2] == [q0, q1, q2];
    assert DecodeFrom(pts[1..][1..], RunningAfter(q1)) == Success([q2]);
    assert DecodeFrom(pts[1..], RunningAfter(q0)) == Success([q1, q2]);
    assert more[1..][1..][1..][1..] == [];
    assert DecodeFrom(more[1..][1..][1..], RunningAfter(q2)) == Failure((0, X));
    assert DecodeFrom(more[1..][1..], RunningAfter(q1)) == Failure((1, X));
    assert DecodeFrom(more[1..], RunningAfter(q0)) == Failure((2, X));
  }
}

=== FILE: device.dfy ===
/** BlueZDevice: one org.bluez.Device1 object. It reads its identity from
    the cached properties, resolves its GATT characteristics from the
    object arena, turns `Connected` property changes into connected /
    disconnected signals, and hooks Value notifications of a
    characteristic to a callback. Signals emitted and bus calls issued are
    returned as a list of effects. */
module Device {
  import opened Wrappers
  import opened Bus
  import opened Gatt
  import opened Topology

  /** A constructed device: identity, vendor, the services found by the
      last resolution pass, and the UUID -> characteristic map. */
  datatype BlueZDevice = BlueZDevice(
    path: Path,
    address: string,
    name: string,
    uuids: seq<Uuid>,
    vendorId: int,
    gattServices: seq<Path>,
    characteristics: CharacteristicMap)

  /** Signals emitted and bus calls issued by the BlueZ layer. */
  datatype Effect =
    | EmitConnected(device: Path)
    | EmitDisconnected(device: Path)
    | EmitDeviceAdded(device: Path)
    | CallConnect(device: Path)
    | CallStartNotify(characteristic: Path)

  /** Why constructing a device aborts: a cached property read on a missing
      Address or Name, an index into empty ManufacturerData, or the UUIDs
      assertion. */
  datatype DeviceError = MissingAddress | MissingName | EmptyManufacturerData | MissingUuids

  /** `vendor_id`: the first ManufacturerData key, 0 without manufacturer
      data; indexing an empty dictionary raises. */
  function VendorId(md: Option<seq<(int, seq<byte>)>>): Result<int, DeviceError>
  {
    match md
    case None => Success(0)
    case Some(entries) => if |entries| == 0 then Failure(EmptyManufacturerData) else Success(entries[0].0)
  }

  /** `resolve`: rebuild the service list from scratch and run the
      characteristic passes. Identity fields are untouched, the service list
      holds exactly this device's services, existing characteristics are
      kept, and the UUID set becomes the old one plus every UUID this
      device's services provide. */
  function Resolve(dev: BlueZDevice, objects: seq<BusObject>): (r: BlueZDevice)
    ensures r.path == dev.path && r.address == dev.address && r.name == dev.name
    ensures r.uuids == dev.uuids && r.vendorId == dev.vendorId
    ensures r.gattServices == ServicesOf(objects, dev.path)
    ensures forall p :: p in r.gattServices <==> exists s :: s in objects && IsServiceOf(s, dev.path) && s.path == p
    ensures forall u :: u in dev.characteristics ==> u in r.characteristics && r.characteristics[u] == dev.characteristics[u]
    ensures forall u :: u in r.characteristics <==> u in dev.characteristics || Provides(objects, dev.path, u)
    ensures forall u :: u in r.characteristics && u !in dev.characteristics ==> exists s, c ::
      && s in objects && IsServiceOf(s, dev.path)
      && c in objects && IsCharacteristicOf(c, s.path) && c.characteristic.value.uuid == u
      && r.characteristics[u] == FromObject(c)
    ensures forall u, i :: u !in dev.characteristics && FirstProvidingService(objects, dev.path, i, u) ==>
      u in r.characteristics && r.characteristics[u] == FromObject(FirstOffer(objects, objects[i].path, u))
  {
    ResolvedMap(dev.characteristics, objects, dev.path);
    var services := ServicesOf(objects, dev.path);
    dev.(gattServices := services, characteristics := AddFromServices(dev.characteristics, services, objects))
  }

  /** `BlueZDevice.__init__`: read the identity, start from an empty map,
      resolve, and emit `connected` at once when the device is already
      connected. Construction fails exactly when Address, Name or UUIDs is
      missing or the manufacturer data is an empty dictionary; on success
      the map holds exactly the UUIDs the device's services provide. */
  function NewDevice(obj: BusObject, objects: seq<BusObject>): (r: Result<(BlueZDevice, seq<Effect>), DeviceError>)
    requires obj.device.Some?
    ensures var p := obj.device.value;
      r.Success? <==> p.address.Some? && p.name.Some? && p.uuids.Some? && p.manufacturerData != Some([])
    ensures var p := obj.device.value;
      r.Failure? && p.address.Some? ==> r.error != MissingAddress && (p.name.Some? ==> r.error != MissingName)
    ensures r.Success? ==> var (dev, effects) := r.value; var p := obj.device.value;
      && dev.path == obj.path
      && dev.address == p.address.value && dev.name == p.name.value && dev.uuids == p.uuids.value
      && (p.manufacturerData.None? ==> dev.vendorId == 0)
      && (p.manufacturerData.Some? ==> dev.vendorId == p.manufacturerData.value[0].0)
      && (forall u :: u in dev.characteristics <==> Provides(objects, obj.path, u))
      && (forall u :: u in dev.characteristics ==> dev.characteristics[u].callbacks == map[])
      && effects == (if p.connected then [EmitConnected(obj.path)] else [])
    ensures r.Success? ==> var dev := r.value.0; var p := obj.device.value;
      dev == Resolve(BlueZDevice(obj.path, p.address.value, p.name.value, p.uuids.value, dev.vendorId, [], map[]), objects)
  {
    var p := obj.device.value;
    if p.address.None? then Failure(MissingAddress)
    else if p.name.None? then Failure(MissingName)
    else match VendorId(p.manufacturerData)
      case Failure(e) => Failure(e)
      case Success(vendor) =>
        if p.uuids.None? then Failure(MissingUuids)
        else
          var blank := BlueZDevice(obj.path, p.address.value, p.name.value, p.uuids.value, vendor, [], map[]);
          var dev := Resolve(blank, objects);
          Success((dev, if p.connected then [EmitConnected(obj.path)] else []))
  }

  /** Two services of one device offer the same UUID, and the second
      service's characteristic comes first in the arena: the UUID still maps
      to the first service's characteristic, because the services are
      walked in arena order and the first entry for a UUID is kept. */
  lemma FirstServiceWins()
    ensures var s1 := BusObject("/d/s1", false, None, Some(ServiceProps("/d")), None);
      var s2 := BusObject("/d/s2", false, None, Some(ServiceProps("/d")), None);
      var c2 := BusObject("/d/s2/c", false, None, None, Some(CharacteristicProps("/d/s2", "u")));
      var c1 := BusObject("/d/s1/c", false, None, None, Some(CharacteristicProps("/d/s1", "u")));
      var r := Resolve(BlueZDevice("/d", "addr", "name", [], 0, [], map[]), [s1, s2, c2, c1]);
      && r.gattServices == ["/d/s1", "/d/s2"]
      && "u" in r.characteristics && r.characteristics["u"] == Characteristic("/d/s1/c", "u", map[])
  {
    var s1 := BusObject("/d/s1", false, None, Some(ServiceProps("/d")), None);
    var s2 := BusObject("/d/s2", false, None, Some(ServiceProps("/d")), None);
    var c2 := BusObject("/d/s2/c", false, None, None, Some(CharacteristicProps("/d/s2", "u")));
    var c1 := BusObject("/d/s1/c", false, None, None, Some(CharacteristicProps("/d/s1", "u")));
    var objects := [s1, s2, c2, c1];
    assert ServicesOf(objects[2..], "/d") == [] by {
      assert objects[2..][1..] == [c1];
    }
    assert ServicesOf(objects, "/d") == ["/d/s1", "/d/s2"] by {
      assert objects[1..][1..] == objects[2..];
    }
    assert OffersAt(objects, 3, "/d/s1", "u");
    assert FirstOfferIndex(objects, "/d/s1", "u") == 3;
    assert FirstProvidingService(objects, "/d", 0, "u");
  }

  /** Resolving twice against the same arena changes nothing the second time. */
  lemma ResolveIdempotent(dev: BlueZDevice, objects: seq<BusObject>)
    ensures Resolve(Resolve(dev, objects), objects) == Resolve(dev, objects)
  {
    var once := Resolve(dev, objects);
    ResolveComplete(once, objects);
  }

  /** A pass over an arena whose every provided UUID is already mapped
      leaves the map as it is. */
  lemma ResolveComplete(dev: BlueZDevice, objects: seq<BusObject>)
    requires forall u :: Provides(objects, dev.path, u) ==> u in dev.characteristics
    ensures Resolve(dev, objects).characteristics == dev.characteristics
  {
  }

  /** More objects in the arena never means fewer UUIDs resolved. */
  lemma ResolveMonotone(dev: BlueZDevice, smaller: seq<BusObject>, larger: seq<BusObject>)
    requires forall o :: o in smaller ==> o in larger
    ensures Resolve(dev, smaller).characteristics.Keys <= Resolve(dev, larger).characteristics.Keys
  {
    forall u | Provides(smaller, dev.path, u) ensures Provides(larger, dev.path, u) {
      ProvidesMonotone(smaller, larger, dev.path, u);
    }
  }

  /** A pass over a partial arena followed by a pass over the complete one
      ends with the same services and UUIDs as a single pass over the
      complete arena: a characteristic that arrived before its service is
      picked up by the next pass. */
  lemma ResolveCatchesUp(dev: BlueZDevice, early: seq<BusObject>, complete: seq<BusObject>)
    requires forall o :: o in early ==> o in complete
    ensures Resolve(Resolve(dev, early), complete).gattServices == Resolve(dev, complete).gattServices
    ensures Resolve(Resolve(dev, early), complete).characteristics.Keys == Resolve(dev, complete).characteristics.Keys
  {
    forall u | Provides(early, dev.path, u) ensures Provides(complete, dev.path, u) {
      ProvidesMonotone(early, complete, dev.path, u);
    }
  }

  /** The arrival order of the objects does not matter: two arenas holding
      the same objects resolve to the same service set and the same UUIDs. */
  lemma ResolveOrderIndependent(dev: BlueZDevice, a: seq<BusObject>, b: seq<BusObject>)
    requires forall o :: o in a <==> o in b
    ensures forall p :: p in Resolve(dev, a).gattServices <==> p in Resolve(dev, b).gattServices
    ensures Resolve(dev, a).characteristics.Keys == Resolve(dev, b).characteristics.Keys
  {
    forall u ensures Provides(a, dev.path, u) <==> Provides(b, dev.path, u) {
      ProvidesMonotone(a, b, dev.path, u);
      ProvidesMonotone(b, a, dev.path, u);
    }
  }

  /** `connect_device`: a device the cache reports connected emits
      `connected` straight away and no Connect call is made; otherwise a
      Connect call is issued and nothing is emitted yet. */
  function ConnectDevice(dev: BlueZDevice, connected: bool): (r: seq<Effect>)
    ensures |r| == 1
    ensures CallConnect(dev.path) in r <==> !connected
    ensures EmitConnected(dev.path) in r <==> connected
  {
    if connected then [EmitConnected(dev.path)] else [CallConnect(dev.path)]
  }

  /** `_on_properties_changed` of a device: a `Connected` change emits
      `connected` when the new value is true and `disconnected` otherwise;
      a batch without `Connected` emits nothing. */
  function OnPropertiesChanged(dev: BlueZDevice, batch: Batch): (r: seq<Effect>)
    requires DistinctNames(batch)
    ensures (forall i :: 0 <= i < |batch| ==> batch[i].0 != "Connected") ==> r == []
    ensures forall i :: 0 <= i < |batch| && batch[i].0 == "Connected" ==>
      r == [if Truthy(batch[i].1) then EmitConnected(dev.path) else EmitDisconnected(dev.path)]
  {
    match Lookup(batch, "Connected")
    case None => []
    case Some(v) => if Truthy(v) then [EmitConnected(dev.path)] else [EmitDisconnected(dev.path)]
  }

  /** Whatever the cached state, asking for a connection and then seeing
      the bus confirm it (the confirmation only comes when a Connect call
      was made) emits `connected` exactly once. */
  lemma ConnectSignalsOnce(dev: BlueZDevice, connected: bool)
    ensures var request := ConnectDevice(dev, connected);
      var confirm := if CallConnect(dev.path) in request then OnPropertiesChanged(dev, [("Connected", VBool(true))]) else [];
      Connects(request + confirm, dev.path) == 1
  {
    var p := dev.path;
    if connected {
      assert ConnectDevice(dev, connected) + [] == [EmitConnected(p)];
      assert Count([EmitConnected(p)][1..], EmitConnected(p)) == 0;
    } else {
      var both := [CallConnect(p), EmitConnected(p)];
      assert [CallConnect(p)] + [EmitConnected(p)] == both;
      assert both[1..][1..] == [];
      assert Count(both[1..][1..], EmitConnected(p)) == 0;
      assert Count(both[1..], EmitConnected(p)) == 1;
    }
  }

  /** Number of `connected` signals for `device` among `effects`. */
  function Connects(effects: seq<Effect>, device: Path): nat
  {
    Count(effects, EmitConnected(device))
  }

  /** `connect_gatt_value`: an unknown UUID is a no-op; for a known UUID the
      characteristic's `Value` property is routed to `h` (other callbacks
      and other characteristics untouched) and notifications are started on
      it. */
  function ConnectGattValue(dev: BlueZDevice, uuid: Uuid, h: Handler): (r: (BlueZDevice, seq<Effect>))
    ensures uuid !in dev.characteristics ==> r == (dev, [])
    ensures uuid in dev.characteristics ==> var (dev', effects) := r; var c := dev.characteristics[uuid];
      && dev' == dev.(characteristics := dev'.characteristics)
      && dev'.characteristics.Keys == dev.characteristics.Keys
      && (forall u :: u in dev.characteristics && u != uuid ==> dev'.characteristics[u] == dev.characteristics[u])
      && dev'.characteristics[uuid].path == c.path && dev'.characteristics[uuid].uuid == c.uuid
      && dev'.characteristics[uuid].callbacks.Keys == c.callbacks.Keys + {"Value"}
      && dev'.characteristics[uuid].callbacks["Value"] == h
      && dev'.characteristics[uuid] == ConnectProperty(c, "Value", h)
      && effects == [CallStartNotify(c.path)]
  {
    if uuid !in dev.characteristics then (dev, [])
    else
      var c := dev.characteristics[uuid];
      (dev.(characteristics := dev.characteristics[uuid := ConnectProperty(c, "Value", h)]), [CallStartNotify(c.path)])
  }

  /** Once `connect_gatt_value` succeeded, every later resolution pass keeps
      the characteristic, so a Value change on it still reaches `h`. */
  lemma ValueRoutingSurvivesResolve(dev: BlueZDevice, uuid: Uuid, h: Handler, objects: seq<BusObject>, v: Variant)
    requires uuid in dev.characteristics
    ensures var dev' := Resolve(ConnectGattValue(dev, uuid, h).0, objects);
      uuid in dev'.characteristics && Dispatch(dev'.characteristics[uuid], [("Value", v)]) == [Invocation(h, "Value", v)]
  {
  }
}

=== FILE: drawing.dfy ===
/** TuhiDrawing: the drawing handed to the publishing side, and the
    dictionary record it is serialised from. A point's dictionary holds
    only the fields that are not None; the drawing record carries format
    version 1, the device name, the dimensions as a two-element list, the
    timestamp and the strokes. The inverse parser shows no information is
    lost: every field left out reads back as None. */
module Drawing {
  import opened Wrappers

  /** A point; a field that was never set reads as None, like a missing
      attribute fetched with a None default. */
  datatype Point = Point(toffset: Option<int>, position: Option<(Option<int>, Option<int>)>, pressure: Option<int>)

  datatype Stroke = Stroke(points: seq<Point>)

  datatype TuhiDrawing = TuhiDrawing(name: string, dimensions: (int, int), timestamp: int, strokes: seq<Stroke>)

  /** The JSON-shaped values of the record (the text produced by
      `json.dumps` is not modelled). */
  datatype Json =
    | JNull
    | JInt(i: int)
    | JStr(s: string)
    | JArray(items: seq<Json>)
    | JObject(fields: map<string, Json>)

  const FormatVersion := 1

  function IntOrNull(v: Option<int>): Json
  {
    if v.Some? then JInt(v.value) else JNull
  }

  /** A position tuple becomes a two-element list; None coordinates become null. */
  function PositionJson(pos: (Option<int>, Option<int>)): Json
  {
    JArray([IntOrNull(pos.0), IntOrNull(pos.1)])
  }

  /** `Point.to_dict`: exactly the fields among toffset, position and
      pressure whose value is not None, each with its value. */
  function PointDict(p: Point): (d: map<string, Json>)
    ensures d.Keys <= {"toffset", "position", "pressure"}
    ensures "toffset" in d <==> p.toffset.Some?
    ensures "position" in d <==> p.position.Some?
    ensures "pressure" in d <==> p.pressure.Some?
    ensures p.toffset.Some? ==> d["toffset"] == JInt(p.toffset.value)
    ensures p.position.Some? ==> d["position"] == PositionJson(p.position.value)
    ensures p.pressure.Some? ==> d["pressure"] == JInt(p.pressure.value)
  {
    var withOffset: map<string, Json> := if p.toffset.Some? then map["toffset" := JInt(p.toffset.value)] else map[];
    var withPosition := if p.position.Some? then withOffset["position" := PositionJson(p.position.value)] else withOffset;
    if p.pressure.Some? then withPosition["pressure" := JInt(p.pressure.value)] else withPosition
  }

  function PointsJson(points: seq<Point>): (r: seq<Json>)
    ensures |r| == |points|
    ensures forall i :: 0 <= i < |r| ==> r[i] == JObject(PointDict(points[i]))
  {
    seq(|points|, i requires 0 <= i < |points| => JObject(PointDict(points[i])))
  }

  /** `Stroke.to_dict`: a single `points` field listing the point dictionaries in order. */
  function StrokeDict(s: Stroke): map<string, Json>
  {
    map["points" := JArray(PointsJson(s.points))]
  }

  function StrokesJson(strokes: seq<Stroke>): (r: seq<Json>)
    ensures |r| == |strokes|
    ensures forall i :: 0 <= i < |r| ==> r[i] == JObject(StrokeDict(strokes[i]))
  {
    seq(|strokes|, i requires 0 <= i < |strokes| => JObject(StrokeDict(strokes[i])))
  }

  /** The record `TuhiDrawing.json` serialises: exactly five fields, version
      1, the device name, the dimensions as a list, the timestamp, and one
      stroke dictionary per stroke, in order. */
  function Record(d: TuhiDrawing): (r: map<string, Json>)
    ensures r.Keys == {"version", "devicename", "dimensions", "timestamp", "strokes"}
    ensures r["version"] == JInt(1)
    ensures r["devicename"] == JStr(d.name)
    ensures r["dimensions"] == JArray([JInt(d.dimensions.0), JInt(d.dimensions.1)])
    ensures r["timestamp"] == JInt(d.timestamp)
    ensures r["strokes"].JArray? && |r["strokes"].items| == |d.strokes|
    ensures forall k :: 0 <= k < |d.strokes| ==> r["strokes"].items[k] == JObject(StrokeDict(d.strokes[k]))
  {
    map[
      "version" := JInt(FormatVersion),
      "devicename" := JStr(d.name),
      "dimensions" := JArray([JInt(d.dimensions.0), JInt(d.dimensions.1)]),
      "timestamp" := JInt(d.timestamp),
      "strokes" := JArray(StrokesJson(d.strokes))
    ]
  }

  // Reading a record back.

  function ParseIntOrNull(j: Json): Option<Option<int>>
  {
    match j
    case JNull => Some(None)
    case JInt(i) => Some(Some(i))
    case _ => None
  }

  function ParsePosition(j: Json): Option<(Option<int>, Option<int>)>
  {
    if j.JArray? && |j.items| == 2 then
      match (ParseIntOrNull(j.items[0]), ParseIntOrNull(j.items[1]))
      case (Some(x), Some(y)) => Some((x, y))
      case _ => None
    else None
  }

  /** A point dictionary read back; a missing key means None. */
  function ParsePoint(j: Json): Option<Point>
  {
    if !j.JObject? then None
    else
      var f := j.fields;
      var toffset := if "toffset" !in f then Some(None) else if f["toffset"].JInt? then Some(Some(f["toffset"].i)) else None;
      var position := if "position" !in f then Some(None) else match ParsePosition(f["position"])
        case Some(pos) => Some(Some(pos))
        case None => None;
      var pressure := if "pressure" !in f then Some(None) else if f["pressure"].JInt? then Some(Some(f["pressure"].i)) else None;
      if toffset.Some? && position.Some? && pressure.Some? then Some(Point(toffset.value, position.value, pressure.value))
      else None
  }

  function ParsePoints(items: seq<Json>): Option<seq<Point>>
    decreases |items|
  {
    if |items| == 0 then Some([])
    else match (ParsePoint(items[0]), ParsePoints(items[1..]))
      case (Some(p), Some(ps)) => Some([p] + ps)
      case _ => None
  }

  function ParseStroke(j: Json): Option<Stroke>
  {
    if j.JObject? && "points" in j.fields && j.fields["points"].JArray? then
      match ParsePoints(j.fields["points"].items)
      case Some(ps) => Some(Stroke(ps))
      case None => None
    else None
  }

  function ParseStrokes(items: seq<Json>): Option<seq<Stroke>>
    decreases |items|
  {
    if |items| == 0 then Some([])
    else match (ParseStroke(items[0]), ParseStrokes(items[1..]))
      case (Some(s), Some(ss)) => Some([s] + ss)
      case _ => None
  }

  function ParseRecord(r: map<string, Json>): Option<TuhiDrawing>
  {
    if "devicename" in r && r["devicename"].JStr?
      && "dimensions" in r && r["dimensions"].JArray? && |r["dimensions"].items| == 2
      && r["dimensions"].items[0].JInt? && r["dimensions"].items[1].JInt?
      && "timestamp" in r && r["timestamp"].JInt?
      && "strokes" in r && r["strokes"].JArray?
    then
      match ParseStrokes(r["strokes"].items)
      case Some(ss) =>
        Some(TuhiDrawing(r["devicename"].s, (r["dimensions"].items[0].i, r["dimensions"].items[1].i), r["timestamp"].i, ss))
      case None => None
    else None
  }

  /** Dropping the None fields loses nothing: the point reads back as it was. */
  lemma PointRoundTrip(p: Point)
    ensures ParsePoint(JObject(PointDict(p))) == Some(p)
  {
  }

  lemma {:induction false} PointsRoundTrip(points: seq<Point>)
    ensures ParsePoints(PointsJson(points)) == Some(points)
    decreases |points|
  {
    if |points| > 0 {
      PointRoundTrip(points[0]);
      assert PointsJson(points)[1..] == PointsJson(points[1..]);
      PointsRoundTrip(points[1..]);
      assert [points[0]] + points[1..] == points;
    }
  }

  lemma {:induction false} StrokesRoundTrip(strokes: seq<Stroke>)
    ensures ParseStrokes(StrokesJson(strokes)) == Some(strokes)
    decreases |strokes|
  {
    if |strokes| > 0 {
      PointsRoundTrip(strokes[0].points);
      assert StrokesJson(strokes)[1..] == StrokesJson(strokes[1..]);
      StrokesRoundTrip(strokes[1..]);
      assert [strokes[0]] + strokes[1..] == strokes;
    }
  }

  /** The drawing record reads back to the drawing it was made from: name,
      dimensions, timestamp, and every stroke and point in order. */
  lemma RecordRoundTrip(d: TuhiDrawing)
    ensures ParseRecord(Record(d)) == Some(d)
  {
    StrokesRoundTrip(d.strokes);
  }
}

=== FILE: gatt.dfy ===
/** BlueZCharacteristic: one GATT characteristic with its per-property
    callback registry. A property-change batch is routed to the callback
    registered for each changed name; names without a callback are skipped. */
module Gatt {
  import opened Bus

  /** The identity of a callback function handed to `connect_property`. */
  datatype Handler = Handler(id: nat)

  /** A characteristic: its object path, UUID and the name -> callback map. */
  datatype Characteristic = Characteristic(path: Path, uuid: Uuid, callbacks: map<string, Handler>)

  /** One call `callback(name, value)` made while routing a batch. */
  datatype Invocation = Invocation(handler: Handler, name: string, value: Variant)

  /** A freshly constructed characteristic for a GattCharacteristic1 object:
      no callback registered yet. */
  function FromObject(o: BusObject): Characteristic
    requires o.characteristic.Some?
  {
    Characteristic(o.path, o.characteristic.value.uuid, map[])
  }

  /** `connect_property`: `name` now routes to `h`; every other name keeps
      its callback, and the characteristic's identity is untouched. */
  function ConnectProperty(c: Characteristic, name: string, h: Handler): (r: Characteristic)
    ensures r.path == c.path && r.uuid == c.uuid
    ensures name in r.callbacks && r.callbacks[name] == h
    ensures r.callbacks.Keys == c.callbacks.Keys + {name}
    ensures forall n :: n in c.callbacks && n != name ==> r.callbacks[n] == c.callbacks[n]
  {
    c.(callbacks := c.callbacks[name := h])
  }

  /** A series of `connect_property` calls, made in order. */
  function ConnectAll(c: Characteristic, regs: seq<(string, Handler)>): Characteristic
    decreases |regs|
  {
    if |regs| == 0 then c
    else
      var last := regs[|regs| - 1];
      ConnectProperty(ConnectAll(c, regs[..|regs| - 1]), last.0, last.1)
  }

  /** Index of the last registration of `name` in `regs`, or -1. */
  function LastIndexOf(regs: seq<(string, Handler)>, name: string): (k: int)
    ensures -1 <= k < |regs|
    ensures k >= 0 ==> regs[k].0 == name
    ensures forall j :: k < j < |regs| ==> regs[j].0 != name
    decreases |regs|
  {
    if |regs| == 0 then -1
    else if regs[|regs| - 1].0 == name then |regs| - 1
    else LastIndexOf(regs[..|regs| - 1], name)
  }

  /** Registering callbacks one after another: a name ends up routed to the
      handler of its LAST registration (re-registering replaces silently),
      and names never registered keep what they had. */
  lemma {:induction false} ConnectAllLastWins(c: Characteristic, regs: seq<(string, Handler)>, name: string)
    ensures var r := ConnectAll(c, regs);
      && r.path == c.path && r.uuid == c.uuid
      && (name in r.callbacks <==> name in c.callbacks || LastIndexOf(regs, name) >= 0)
      && (LastIndexOf(regs, name) >= 0 ==> r.callbacks[name] == regs[LastIndexOf(regs, name)].1)
      && (LastIndexOf(regs, name) < 0 && name in c.callbacks ==> r.callbacks[name] == c.callbacks[name])
    decreases |regs|
  {
    if |regs| > 0 {
      ConnectAllLastWins(c, regs[..|regs| - 1], name);
    }
  }

  /** The calls made for one changed property: its callback, if registered. */
  function Route(c: Characteristic, change: (string, Variant)): seq<Invocation>
  {
    if change.0 in c.callbacks then [Invocation(c.callbacks[change.0], change.0, change.1)] else []
  }

  /** `_on_properties_changed`: walk the batch in order, call the callback
      registered for each changed name, skip names with no callback. At most
      one call per change. */
  function Dispatch(c: Characteristic, batch: Batch): (r: seq<Invocation>)
    ensures |r| <= |batch|
    decreases |batch|
  {
    if |batch| == 0 then [] else Route(c, batch[0]) + Dispatch(c, batch[1..])
  }

  /** Every call made goes to the callback registered for a changed name,
      with that name and its new value; every changed name that has a
      callback is routed to it; a batch of unregistered names (an RSSI
      update, say) makes no call at all. */
  lemma {:induction false} DispatchRoutesRegistered(c: Characteristic, batch: Batch)
    ensures forall inv :: inv in Dispatch(c, batch) ==>
      && inv.name in c.callbacks
      && inv.handler == c.callbacks[inv.name]
      && (inv.name, inv.value) in batch
    ensures forall i :: 0 <= i < |batch| && batch[i].0 in c.callbacks ==>
      Invocation(c.callbacks[batch[i].0], batch[i].0, batch[i].1) in Dispatch(c, batch)
    ensures (forall i :: 0 <= i < |batch| ==> batch[i].0 !in c.callbacks) ==> Dispatch(c, batch) == []
    decreases |batch|
  {
    if |batch| > 0 {
      DispatchRoutesRegistered(c, batch[1..]);
      assert forall i :: 1 <= i < |batch| ==> batch[i] == batch[1..][i - 1];
    }
  }

  /** Routing is done change by change, in batch order: routing a
      concatenation is routing each part in turn. */
  lemma {:induction false} DispatchConcat(c: Characteristic, a: Batch, b: Batch)
    ensures Dispatch(c, a + b) == Dispatch(c, a) + Dispatch(c, b)
    decreases |a|
  {
    if |a| > 0 {
      assert (a + b)[0] == a[0];
      assert (a + b)[1..] == a[1..] + b;
      DispatchConcat(c, a[1..], b);
      calc {
        Dispatch(c, a + b);
        Route(c, a[0]) + Dispatch(c, a[1..] + b);
        Route(c, a[0]) + (Dispatch(c, a[1..]) + Dispatch(c, b));
        (Route(c, a[0]) + Dispatch(c, a[1..])) + Dispatch(c, b);
      }
    } else {
      assert a + b == b;
    }
  }

  /** When every changed name has a callback, each change produces exactly
      one call, in batch order. */
  lemma {:induction false} DispatchAllRegistered(c: Characteristic, batch: Batch)
    requires forall i :: 0 <= i < |batch| ==> batch[i].0 in c.callbacks
    ensures |Dispatch(c, batch)| == |batch|
    ensures forall i :: 0 <= i < |batch| ==>
      Dispatch(c, batch)[i] == Invocation(c.callbacks[batch[i].0], batch[i].0, batch[i].1)
    decreases |batch|
  {
    if |batch| > 0 {
      DispatchAllRegistered(c, batch[1..]);
    }
  }
}

=== FILE: manager.dfy ===
/** BlueZDeviceManager: classifies each object the object manager reports,
    constructs a device for every Device1 object (no deduplication happens
    at this layer), and re-resolves every known device whenever a
    characteristic object arrives. */
module Manager {
  import opened Wrappers
  import opened Bus
  import opened Topology
  import opened Device

  /** The devices constructed so far, in arrival order. */
  datatype Manager = Manager(devices: seq<BlueZDevice>)

  /** The outcome of `_process_object`: the new manager state, the effects
      emitted, and the returned flag asking for re-resolution. */
  datatype Processed = Processed(manager: Manager, effects: seq<Effect>, needsResolve: bool)

  /** The object is handled as a characteristic: neither an adapter nor a
      device interface shadows its characteristic interface. */
  predicate IsCharacteristicOnly(o: BusObject)
  {
    !o.adapter && o.device.None? && o.characteristic.Some?
  }

  /** `_process_object`: an adapter is only noted; otherwise a device is
      constructed, appended and announced with `device-added`; otherwise a
      characteristic asks for re-resolution. The flag is true exactly for a
      characteristic-only object, and only a device object changes the
      device list, by appending exactly one device. A failing device
      construction propagates and leaves the state as it was. */
  function ProcessObject(m: Manager, obj: BusObject, objects: seq<BusObject>): (r: Result<Processed, DeviceError>)
    ensures r.Success? ==> (r.value.needsResolve <==> IsCharacteristicOnly(obj))
    ensures r.Failure? ==>
      && !obj.adapter && obj.device.Some? && NewDevice(obj, objects).Failure?
      && r.error == NewDevice(obj, objects).error
    ensures (obj.adapter || obj.device.None?) ==> r.Success? && r.value.manager == m && r.value.effects == []
    ensures !obj.adapter && obj.device.Some? ==> (r.Success? <==> NewDevice(obj, objects).Success?)
    ensures !obj.adapter && obj.device.Some? && r.Success? ==>
      var (dev, effects) := NewDevice(obj, objects).value;
      && r.value.manager.devices == m.devices + [dev]
      && dev.path == obj.path
      && r.value.effects == effects + [EmitDeviceAdded(obj.path)]
  {
    if obj.adapter then Success(Processed(m, [], false))
    else if obj.device.Some? then
      match NewDevice(obj, objects)
      case Failure(e) => Failure(e)
      case Success((dev, effects)) =>
        Success(Processed(Manager(m.devices + [dev]), effects + [EmitDeviceAdded(obj.path)], false))
    else if obj.characteristic.Some? then Success(Processed(m, [], true))
    else Success(Processed(m, [], false))
  }

  /** Re-resolve every known device against the arena, keeping their order. */
  function ResolveAll(devices: seq<BlueZDevice>, objects: seq<BusObject>): (r: seq<BlueZDevice>)
    ensures |r| == |devices|
    ensures forall i :: 0 <= i < |r| ==> r[i] == Resolve(devices[i], objects)
  {
    seq(|devices|, i requires 0 <= i < |devices| => Resolve(devices[i], objects))
  }

  /** `_on_om_object_added`: process the new object against the current
      arena (which already holds it); when a characteristic arrived, every
      known device is resolved again, after which each device maps every
      UUID its services provide, old entries untouched. Other objects never
      trigger resolution of the known devices. */
  function OnObjectAdded(m: Manager, obj: BusObject, objects: seq<BusObject>): (r: Result<(Manager, seq<Effect>), DeviceError>)
    ensures r.Success? <==> ProcessObject(m, obj, objects).Success?
    ensures r.Failure? ==> r.error == ProcessObject(m, obj, objects).error
    ensures IsCharacteristicOnly(obj) ==> r.Success? && r.value.1 == []
    ensures IsCharacteristicOnly(obj) ==> var ds := r.value.0.devices;
      && |ds| == |m.devices|
      && (forall i :: 0 <= i < |ds| ==> ds[i].path == m.devices[i].path && ds[i].address == m.devices[i].address)
      && (forall i, u :: 0 <= i < |ds| && Provides(objects, m.devices[i].path, u) ==> u in ds[i].characteristics)
      && (forall i, u :: 0 <= i < |ds| && u in m.devices[i].characteristics ==>
            u in ds[i].characteristics && ds[i].characteristics[u] == m.devices[i].characteristics[u])
    ensures IsCharacteristicOnly(obj) ==> r.value.0.devices == ResolveAll(m.devices, objects)
    ensures !IsCharacteristicOnly(obj) && r.Success? ==>
      m.devices <= r.value.0.devices && |r.value.0.devices| <= |m.devices| + 1
    ensures !IsCharacteristicOnly(obj) && r.Success? ==> var p := ProcessObject(m, obj, objects).value;
      r.value == (p.manager, p.effects)
  {
    match ProcessObject(m, obj, objects)
    case Failure(e) => Failure(e)
    case Success(p) =>
      if p.needsResolve then Success((Manager(ResolveAll(p.manager.devices, objects)), p.effects))
      else Success((p.manager, p.effects))
  }

  /** The same characteristic announced twice against the same arena: the
      second announcement changes nothing. */
  lemma {:induction false} OnObjectAddedIdempotent(m: Manager, obj: BusObject, objects: seq<BusObject>)
    requires IsCharacteristicOnly(obj)
    ensures var once := OnObjectAdded(m, obj, objects).value.0;
      OnObjectAdded(once, obj, objects).value.0 == once
  {
    var once := OnObjectAdded(m, obj, objects).value.0;
    var twice := OnObjectAdded(once, obj, objects).value.0;
    forall i | 0 <= i < |m.devices|
      ensures twice.devices[i] == once.devices[i]
    {
      ResolveIdempotent(m.devices[i], objects);
    }
  }
}

=== FILE: session.dfy ===
/** The orchestration in the daemon: TuhiDevice glues one BlueZ device to
    its protocol driver and its published counterpart, choosing between
    pairing and data retrieval when the device connects; Tuhi keeps one
    TuhiDevice per hardware address and reacts to Wacom devices only.
    Every step returns the new state and the actions it triggers. */
module Session {
  import opened Wrappers
  import opened Bus
  import opened Device
  import opened Drawing
  import opened StrokeDecode

  /** The Bluetooth SIG company identifier of Wacom. */
  const WacomCompanyId := 0x4755

  /** A TuhiDevice: the address it was created for, the path of the BlueZ
      device it was wired to at creation, and the pending-pairing flag. */
  datatype TuhiDevice = TuhiDevice(address: string, bluezDevice: Path, pairing: bool)

  /** What a step asks of its collaborators. */
  datatype Action =
    | CreateDBusDevice(address: string)
    | PublishPairingMode(address: string, pairingMode: bool)
    | ConnectBluez(bluezDevice: Path)
    | DisconnectBluez(bluezDevice: Path)
    | StartRetrieval(address: string)
    | StartPairing(address: string)
    | AddDrawing(address: string, drawing: TuhiDrawing)

  /** The `pairingmode` property: the device advertises pairing mode exactly
      when its Wacom manufacturer data is 4 bytes long; the value is also
      published on the device's bus counterpart. */
  function PairingMode(d: TuhiDevice, md: seq<byte>): (r: (bool, seq<Action>))
    ensures r.0 <==> |md| == 4
    ensures r.1 == [PublishPairingMode(d.address, r.0)]
  {
    var on := |md| == 4;
    (on, [PublishPairingMode(d.address, on)])
  }

  /** `retrieve_data`: ask the BlueZ device to connect. */
  function RetrieveData(d: TuhiDevice): seq<Action>
  {
    [ConnectBluez(d.bluezDevice)]
  }

  /** `_on_pairing`: remember that pairing was requested and connect. */
  function OnPairing(d: TuhiDevice): (r: (TuhiDevice, seq<Action>))
    ensures r.0.pairing && r.0.address == d.address && r.0.bluezDevice == d.bluezDevice
    ensures r.1 == RetrieveData(d)
  {
    (d.(pairing := true), RetrieveData(d))
  }

  /** `_on_bluez_device_connected`: with the driver idle, exactly one of
      pairing (when requested, clearing the request) or retrieval starts;
      with the driver working nothing happens. The request survives only a
      connection that found the driver working. */
  function OnConnected(d: TuhiDevice, working: bool): (r: (TuhiDevice, seq<Action>))
    ensures r.0 == d.(pairing := r.0.pairing)
    ensures r.0.pairing <==> d.pairing && working
    ensures |r.1| <= 1
    ensures working <==> r.1 == []
    ensures StartPairing(d.address) in r.1 <==> !working && d.pairing
    ensures StartRetrieval(d.address) in r.1 <==> !working && !d.pairing
  {
    if working then (d, [])
    else if !d.pairing then (d, [StartRetrieval(d.address)])
    else (d.(pairing := false), [StartPairing(d.address)])
  }

  /** `_on_drawing_received`: decode the drawing and hand it over; a stroke
      that raises aborts the handler before anything is handed over. */
  function OnDrawingReceived(d: TuhiDevice, deviceName: string, raw: RawDrawing): (r: Result<seq<Action>, DecodeError>)
    ensures r.Success? <==> forall k :: 0 <= k < |raw.strokes| ==> DecodeFrom(raw.strokes[k], Unknown).Success?
    ensures r.Success? ==> |r.value| == 1 && r.value[0].AddDrawing? && r.value[0].address == d.address
    ensures r.Success? ==> var drawing := r.value[0].drawing;
      && drawing.name == deviceName && drawing.dimensions == (0, 0) && drawing.timestamp == raw.timestamp
      && |drawing.strokes| == |raw.strokes|
      && forall k :: 0 <= k < |raw.strokes| ==> drawing.strokes[k].points == DecodeFrom(raw.strokes[k], Unknown).value
    ensures r.Failure? ==> var e := r.error;
      && e.stroke < |raw.strokes|
      && DecodeFrom(raw.strokes[e.stroke], Unknown) == Failure((e.point, e.channel))
      && forall k :: 0 <= k < e.stroke ==> DecodeFrom(raw.strokes[k], Unknown).Success?
  {
    match DecodeDrawing(deviceName, raw)
    case Failure(e) => Failure(e)
    case Success(drawing) => Success([AddDrawing(d.address, drawing)])
  }

  /** `_on_fetching_finished`: disconnect the BlueZ device. */
  function OnFetchingFinished(d: TuhiDevice): seq<Action>
  {
    [DisconnectBluez(d.bluezDevice)]
  }

  /** A retrieval releases the connection it opened: whatever the
      connection step does to the device, the fetch-finished step
      disconnects exactly the BlueZ device the retrieval connected, once. */
  lemma RetrievalReleasesConnection(d: TuhiDevice, working: bool, p: Path)
    ensures var connected := OnConnected(d, working).0;
      && (ConnectBluez(p) in RetrieveData(d) <==> DisconnectBluez(p) in OnFetchingFinished(connected))
      && Count(RetrieveData(d), ConnectBluez(p)) == Count(OnFetchingFinished(connected), DisconnectBluez(p)) <= 1
  {
  }

  /** A pairing request followed by a connection with the driver idle
      starts pairing once; the next idle connection starts retrieval. */
  lemma PairingIsOneShot(d: TuhiDevice)
    ensures var (requested, connect) := OnPairing(d);
      var (paired, first) := OnConnected(requested, false);
      var (_, second) := OnConnected(paired, false);
      && connect == [ConnectBluez(d.bluezDevice)]
      && first == [StartPairing(d.address)] && !paired.pairing
      && second == [StartRetrieval(d.address)]
  {
  }

  /** The daemon's devices, keyed by hardware address. */
  datatype Tuhi = Tuhi(devices: map<string, TuhiDevice>)

  /** Every TuhiDevice is filed under its own address. */
  ghost predicate Valid(t: Tuhi)
  {
    forall a :: a in t.devices ==> t.devices[a].address == a
  }

  /** `get_tuhi_device`: the device filed under the BlueZ device's address,
      created (with its bus counterpart) only when none exists yet. An
      existing device is returned unchanged even when it was wired to a
      different BlueZ object with the same address. */
  function GetTuhiDevice(t: Tuhi, bdev: BlueZDevice): (r: (Tuhi, TuhiDevice, seq<Action>))
    ensures bdev.address in r.0.devices && r.1 == r.0.devices[bdev.address]
    ensures bdev.address in t.devices ==> r.0 == t && r.2 == []
    ensures bdev.address !in t.devices ==>
      && r.0.devices == t.devices[bdev.address := r.1]
      && r.1 == TuhiDevice(bdev.address, bdev.path, false)
      && r.2 == [CreateDBusDevice(bdev.address)]
  {
    if bdev.address in t.devices then (t, t.devices[bdev.address], [])
    else
      var d := TuhiDevice(bdev.address, bdev.path, false);
      (Tuhi(t.devices[bdev.address := d]), d, [CreateDBusDevice(bdev.address)])
  }

  /** `_on_bluez_device_updated`: a non-Wacom device is ignored; a Wacom
      device gets its TuhiDevice (created once per address), its pairing
      mode is published, and outside pairing mode data retrieval starts by
      connecting the BlueZ device the TuhiDevice was wired to. */
  function OnBluezDeviceUpdated(t: Tuhi, bdev: BlueZDevice, md: seq<byte>): (r: (Tuhi, seq<Action>))
    ensures bdev.vendorId != WacomCompanyId ==> r == (t, [])
    ensures bdev.vendorId == WacomCompanyId ==> r.0 == GetTuhiDevice(t, bdev).0
    ensures bdev.vendorId == WacomCompanyId ==>
      && r.0.devices.Keys == t.devices.Keys + {bdev.address}
      && (forall a :: a in t.devices ==> r.0.devices[a] == t.devices[a])
    ensures Valid(t) ==> Valid(r.0)
    ensures Count(r.1, CreateDBusDevice(bdev.address)) == (if bdev.vendorId == WacomCompanyId && bdev.address !in t.devices then 1 else 0)
    ensures bdev.vendorId == WacomCompanyId ==>
      (ConnectBluez(r.0.devices[bdev.address].bluezDevice) in r.1 <==> |md| != 4)
    ensures bdev.vendorId == WacomCompanyId ==> (r.1 ==
      (if bdev.address !in t.devices then [CreateDBusDevice(bdev.address)] else [])
      + [PublishPairingMode(r.0.devices[bdev.address].address, |md| == 4)]
      + (if |md| != 4 then [ConnectBluez(r.0.devices[bdev.address].bluezDevice)] else []))
  {
    if bdev.vendorId != WacomCompanyId then (t, [])
    else
      var (t', d, created) := GetTuhiDevice(t, bdev);
      var (on, published) := PairingMode(d, md);
      var actions := created + published + (if !on then RetrieveData(d) else []);
      assert created == (if bdev.address !in t.devices then [CreateDBusDevice(bdev.address)] else []);
      assert published == [PublishPairingMode(t'.devices[bdev.address].address, |md| == 4)];
      assert (if !on then RetrieveData(d) else []) == (if |md| != 4 then [ConnectBluez(t'.devices[bdev.address].bluezDevice)] else []);
      CountNoCreate(published + (if !on then RetrieveData(d) else []), bdev.address);
      assert created + (published + (if !on then RetrieveData(d) else [])) == actions;
      CountConcat(created, published + (if !on then RetrieveData(d) else []), CreateDBusDevice(bdev.address));
      (t', actions)
  }

  lemma {:induction false} CountNoCreate(s: seq<Action>, address: string)
    requires forall i :: 0 <= i < |s| ==> !s[i].CreateDBusDevice?
    ensures Count(s, CreateDBusDevice(address)) == 0
    decreases |s|
  {
    if |s| > 0 {
      CountNoCreate(s[1..], address);
    }
  }

  /** Two updates for the same address (say, two BlueZ objects announcing the
      same pen) create at most one TuhiDevice and one bus counterpart, and
      the second update reuses the device the first one filed. */
  lemma UpdatesDeduplicate(t: Tuhi, b1: BlueZDevice, md1: seq<byte>, b2: BlueZDevice, md2: seq<byte>)
    requires b1.address == b2.address
    requires b1.vendorId == WacomCompanyId && b2.vendorId == WacomCompanyId
    ensures var (t1, a1) := OnBluezDeviceUpdated(t, b1, md1);
      var (t2, a2) := OnBluezDeviceUpdated(t1, b2, md2);
      && Count(a1 + a2, CreateDBusDevice(b1.address)) == (if b1.address in t.devices then 0 else 1)
      && t2 == t1
      && (b1.address !in t.devices ==> t2.devices[b1.address].bluezDevice == b1.path)
  {
    var (t1, a1) := OnBluezDeviceUpdated(t, b1, md1);
    var (t2, a2) := OnBluezDeviceUpdated(t1, b2, md2);
    CountConcat(a1, a2, CreateDBusDevice(b1.address));
  }
}

=== FILE: topology.dfy ===
/** Resolution of a device's GATT topology from the flat object arena:
    services are matched to the device by their Device property,
    characteristics to a service by their Service property, and the
    characteristics are collected into a UUID-keyed map in which the first
    characteristic seen for a UUID wins and is never replaced. */
module Topology {
  import opened Bus
  import opened Gatt

  type CharacteristicMap = map<Uuid, Characteristic>

  /** The object at index `k` is a characteristic of `service` carrying `uuid`. */
  predicate OffersAt(objects: seq<BusObject>, k: int, service: Path, uuid: Uuid)
    requires 0 <= k < |objects|
  {
    IsCharacteristicOf(objects[k], service) && objects[k].characteristic.value.uuid == uuid
  }

  /** Some characteristic object of `service` in the arena carries `uuid`. */
  ghost predicate Offers(objects: seq<BusObject>, service: Path, uuid: Uuid)
  {
    exists k :: 0 <= k < |objects| && OffersAt(objects, k, service, uuid)
  }

  /** An arena offers `uuid` through its head or through its tail. */
  lemma OffersSplit(objects: seq<BusObject>, service: Path, uuid: Uuid)
    requires |objects| > 0
    ensures Offers(objects, service, uuid) <==> OffersAt(objects, 0, service, uuid) || Offers(objects[1..], service, uuid)
  {
    if Offers(objects, service, uuid) && !OffersAt(objects, 0, service, uuid) {
      var k :| 0 <= k < |objects| && OffersAt(objects, k, service, uuid);
      assert OffersAt(objects[1..], k - 1, service, uuid);
    }
    if Offers(objects[1..], service, uuid) {
      var k :| 0 <= k < |objects[1..]| && OffersAt(objects[1..], k, service, uuid);
      assert OffersAt(objects, k + 1, service, uuid);
    }
  }

  /** What a smaller arena provides, an arena holding all of its objects
      provides too. */
  lemma ProvidesMonotone(smaller: seq<BusObject>, larger: seq<BusObject>, device: Path, uuid: Uuid)
    requires forall o :: o in smaller ==> o in larger
    ensures Provides(smaller, device, uuid) ==> Provides(larger, device, uuid)
  {
    if Provides(smaller, device, uuid) {
      var s :| s in smaller && IsServiceOf(s, device) && Offers(smaller, s.path, uuid);
      var k :| 0 <= k < |smaller| && OffersAt(smaller, k, s.path, uuid);
      assert smaller[k] in larger;
      var k' :| 0 <= k' < |larger| && larger[k'] == smaller[k];
      assert OffersAt(larger, k', s.path, uuid);
    }
  }

  /** Some service of `device` in the arena offers a characteristic with `uuid`. */
  ghost predicate Provides(objects: seq<BusObject>, device: Path, uuid: Uuid)
  {
    exists s :: s in objects && IsServiceOf(s, device) && Offers(objects, s.path, uuid)
  }

  /** Index of the first characteristic object of `service` carrying
      `uuid`, in arena order: that index offers `uuid` and no earlier one does. */
  function FirstOfferIndex(objects: seq<BusObject>, service: Path, uuid: Uuid): (k: nat)
    requires Offers(objects, service, uuid)
    ensures k < |objects| && OffersAt(objects, k, service, uuid)
    ensures forall j :: 0 <= j < k ==> !OffersAt(objects, j, service, uuid)
    decreases |objects|
  {
    if OffersAt(objects, 0, service, uuid) then 0
    else
      var k :| 0 <= k < |objects| && OffersAt(objects, k, service, uuid);
      assert OffersAt(objects[1..], k - 1, service, uuid);
      assert forall j :: 1 <= j < |objects| ==> OffersAt(objects, j, service, uuid) == OffersAt(objects[1..], j - 1, service, uuid);
      1 + FirstOfferIndex(objects[1..], service, uuid)
  }

  /** The first characteristic object of `service` carrying `uuid`, in arena order. */
  function FirstOffer(objects: seq<BusObject>, service: Path, uuid: Uuid): (o: BusObject)
    requires Offers(objects, service, uuid)
    ensures o in objects && IsCharacteristicOf(o, service) && o.characteristic.value.uuid == uuid
  {
    objects[FirstOfferIndex(objects, service, uuid)]
  }

  /** `_resolve_gatt_services`' choice of services: the paths of the service
      objects whose Device is `device`. A single object contributes its path
      exactly when it is a service of `device`; the order of the arena is
      kept, as `ServicesOfConcat` states. */
  function ServicesOf(objects: seq<BusObject>, device: Path): (r: seq<Path>)
    ensures |r| <= |objects|
    ensures forall p :: p in r <==> exists s :: s in objects && IsServiceOf(s, device) && s.path == p
    ensures |objects| == 1 ==> (r == [objects[0].path] <==> IsServiceOf(objects[0], device)) && (r == [] <==> !IsServiceOf(objects[0], device))
    decreases |objects|
  {
    if |objects| == 0 then []
    else
      assert forall o :: o in objects <==> o == objects[0] || o in objects[1..];
      (if IsServiceOf(objects[0], device) then [objects[0].path] else []) + ServicesOf(objects[1..], device)
  }

  /** The service list of a split arena is the two lists one after the
      other: services are listed in arena order. */
  lemma {:induction false} ServicesOfConcat(a: seq<BusObject>, b: seq<BusObject>, device: Path)
    ensures ServicesOf(a + b, device) == ServicesOf(a, device) + ServicesOf(b, device)
    decreases |a|
  {
    if |a| == 0 {
      assert a + b == b;
    } else {
      var head := if IsServiceOf(a[0], device) then [a[0].path] else [];
      assert (a + b)[0] == a[0];
      assert (a + b)[1..] == a[1..] + b;
      assert ServicesOf(a + b, device) == head + ServicesOf(a[1..] + b, device);
      assert ServicesOf(a, device) == head + ServicesOf(a[1..], device);
      ServicesOfConcat(a[1..], b, device);
      assert head + (ServicesOf(a[1..], device) + ServicesOf(b, device)) == (head + ServicesOf(a[1..], device)) + ServicesOf(b, device);
    }
  }

  /** One characteristic object's effect on the map: a characteristic of
      `service` is added under its UUID unless that UUID is already there. */
  function AddOne(chars: CharacteristicMap, service: Path, o: BusObject): CharacteristicMap
  {
    if IsCharacteristicOf(o, service) && o.characteristic.value.uuid !in chars
    then chars[o.characteristic.value.uuid := FromObject(o)]
    else chars
  }

  /** `_resolve_gatt_characteristics` for one service: the map only grows,
      existing entries are kept, the new keys are exactly the UUIDs the
      service offers, and each new entry is built from the first object
      offering its UUID. */
  function AddFromService(chars: CharacteristicMap, service: Path, objects: seq<BusObject>): (r: CharacteristicMap)
    ensures forall u :: u in chars ==> u in r && r[u] == chars[u]
    ensures forall u :: u in r <==> u in chars || Offers(objects, service, u)
    ensures forall u :: u in r && u !in chars ==> Offers(objects, service, u) && r[u] == FromObject(FirstOffer(objects, service, u))
    decreases |objects|
  {
    if |objects| == 0 then chars
    else
      var o := objects[0];
      var rest := AddFromService(AddOne(chars, service, o), service, objects[1..]);
      assert forall u, k :: 1 <= k < |objects| ==> OffersAt(objects, k, service, u) == OffersAt(objects[1..], k - 1, service, u);
      forall u ensures Offers(objects, service, u) <==> OffersAt(objects, 0, service, u) || Offers(objects[1..], service, u) {
        OffersSplit(objects, service, u);
      }
      forall u | u in rest && u !in chars && !OffersAt(objects, 0, service, u)
        ensures Offers(objects, service, u)
        ensures FirstOffer(objects, service, u) == FirstOffer(objects[1..], service, u)
      {
        var k :| 0 <= k < |objects[1..]| && OffersAt(objects[1..], k, service, u);
        assert OffersAt(objects, k + 1, service, u);
      }
      rest
  }

  /** `services[j]` is the first of `services` that offers `uuid`. */
  ghost predicate FirstOfferingService(objects: seq<BusObject>, services: seq<Path>, j: int, uuid: Uuid)
  {
    && 0 <= j < |services|
    && Offers(objects, services[j], uuid)
    && forall j' :: 0 <= j' < j ==> !Offers(objects, services[j'], uuid)
  }

  /** The characteristic passes of `_resolve_gatt_services`, one per service
      in order: existing entries are kept, the new keys are exactly the
      UUIDs offered by one of `services`, and a new entry comes from the
      first service in the list that offers its UUID. */
  function AddFromServices(chars: CharacteristicMap, services: seq<Path>, objects: seq<BusObject>): (r: CharacteristicMap)
    ensures forall u :: u in chars ==> u in r && r[u] == chars[u]
    ensures forall u :: u in r <==> u in chars || exists s :: s in services && Offers(objects, s, u)
    ensures forall u :: u in r && u !in chars ==> (exists s ::
      && s in services
      && Offers(objects, s, u)
      && r[u] == FromObject(FirstOffer(objects, s, u)))
    ensures forall u, j :: u !in chars && FirstOfferingService(objects, services, j, u) ==>
      u in r && r[u] == FromObject(FirstOffer(objects, services[j], u))
    decreases |services|
  {
    if |services| == 0 then chars
    else
      assert forall s :: s in services <==> s == services[0] || s in services[1..];
      var mid := AddFromService(chars, services[0], objects);
      var r := AddFromServices(mid, services[1..], objects);
      forall u, j | u !in chars && FirstOfferingService(objects, services, j, u)
        ensures u in r && r[u] == FromObject(FirstOffer(objects, services[j], u))
      {
        if j > 0 {
          assert !Offers(objects, services[0], u);
          assert FirstOfferingService(objects, services[1..], j - 1, u) by {
            forall j' | 0 <= j' < j - 1 ensures !Offers(objects, services[1..][j'], u) {
              assert services[1..][j'] == services[j' + 1];
            }
          }
        }
      }
      r
  }

  /** The arena object at `i` is the first service of `device`, in arena
      order, that offers `uuid`. */
  ghost predicate FirstProvidingService(objects: seq<BusObject>, device: Path, i: int, uuid: Uuid)
  {
    && 0 <= i < |objects|
    && IsServiceOf(objects[i], device)
    && Offers(objects, objects[i].path, uuid)
    && forall i' :: 0 <= i' < i && IsServiceOf(objects[i'], device) ==> !Offers(objects, objects[i'].path, uuid)
  }

  /** The first service of `device` in the arena that offers `uuid` is
      also the first such service in the device's service list. */
  lemma FirstProvidingPosition(objects: seq<BusObject>, device: Path, i: int, uuid: Uuid) returns (j: nat)
    requires FirstProvidingService(objects, device, i, uuid)
    ensures FirstOfferingService(objects, ServicesOf(objects, device), j, uuid)
    ensures ServicesOf(objects, device)[j] == objects[i].path
  {
    var before := ServicesOf(objects[..i], device);
    assert objects == objects[..i] + ([objects[i]] + objects[i + 1..]);
    ServicesOfConcat(objects[..i], [objects[i]] + objects[i + 1..], device);
    ServicesOfConcat([objects[i]], objects[i + 1..], device);
    assert ServicesOf([objects[i]], device) == [objects[i].path];
    var all := ServicesOf(objects, device);
    assert all == before + ([objects[i].path] + ServicesOf(objects[i + 1..], device));
    j := |before|;
    forall j' | 0 <= j' < j
      ensures !Offers(objects, all[j'], uuid)
    {
      assert all[j'] == before[j'] && before[j'] in before;
      var s :| s in objects[..i] && IsServiceOf(s, device) && s.path == before[j'];
      var i' :| 0 <= i' < i && objects[..i][i'] == s;
      assert objects[i'] == s;
    }
  }

  /** The UUID map a resolution pass of `device` produces from `chars`:
      old entries kept, new keys exactly the UUIDs the device's services
      provide, each new entry a fresh characteristic built from an object of
      one of those services. */
  lemma ResolvedMap(chars: CharacteristicMap, objects: seq<BusObject>, device: Path)
    ensures var r := AddFromServices(chars, ServicesOf(objects, device), objects);
      && (forall u :: u in chars ==> u in r && r[u] == chars[u])
      && (forall u :: u in r <==> u in chars || Provides(objects, device, u))
      && (forall u :: u in r && u !in chars ==> exists s, c ::
            && s in objects && IsServiceOf(s, device)
            && c in objects && IsCharacteristicOf(c, s.path) && c.characteristic.value.uuid == u
            && r[u] == FromObject(c))
      && (forall u, i :: u !in chars && FirstProvidingService(objects, device, i, u) ==>
            u in r && r[u] == FromObject(FirstOffer(objects, objects[i].path, u)))
  {
    var services := ServicesOf(objects, device);
    var r := AddFromServices(chars, services, objects);
    forall u, i | u !in chars && FirstProvidingService(objects, device, i, u)
      ensures u in r && r[u] == FromObject(FirstOffer(objects, objects[i].path, u))
    {
      var j := FirstProvidingPosition(objects, device, i, u);
    }
  }
}

=== FILE: wrappers.dfy ===
/** Failure-carrying return types and a sequence count used throughout the model. */
module Wrappers {

  /** A value that may be absent; stands for Python's `None`. */
  datatype Option<+T> = None | Some(value: T)

  /** The outcome of an operation that can raise: `Failure` stands for the
      exception the Python code would propagate. */
  datatype Result<+T, +E> = Success(value: T) | Failure(error: E)

  /** Number of occurrences of `x` in `s`. */
  function Count<T(==)>(s: seq<T>, x: T): nat
    decreases |s|
  {
    if |s| == 0 then 0 else (if s[0] == x then 1 else 0) + Count(s[1..], x)
  }

  /** Occurrences in a concatenation add up. */
  lemma {:induction false} CountConcat<T>(a: seq<T>, b: seq<T>, x: T)
    ensures Count(a + b, x) == Count(a, x) + Count(b, x)
    decreases |a|
  {
    if |a| > 0 {
      assert (a + b)[1..] == a[1..] + b;
      CountConcat(a[1..], b, x);
    } else {
      assert a + b == b;
    }
  }
}
